=== FILE: README.md ===
# Traffic light with a blocking phase queue — Dafny model

The system is a single traffic light run as an actor. A background loop flips
the light between red and green after a random interval of 4000–6000 ms. Each
new phase is pushed into a generic blocking message queue. Observers call
`waitForGreen`, which keeps receiving from that queue until a green arrives,
or they read the current phase directly.

This project models the sequential core under the thread plumbing:

- `message_queue.dfy`, module `MessageQueue`: the generic `MessageQueue<T>` as a
  FIFO over `seq<T>`. `Send` appends at the back. `Receive` removes and returns
  the front. The condition-variable wait of `receive` becomes the precondition
  that the queue is non-empty. Runs of interleaved sends and receives
  (`Run`, `RunIsFifo`) show FIFO delivery with no loss and no duplication.
- `traffic_light.dfy`, module `TrafficLight`: the phase type, the light
  (phase plus owned queue), the constructor, `getCurrentPhase`
  (`CurrentPhase`), `waitForGreen` (`WaitForGreen`, checked against the
  reference definition `FirstGreen`), one iteration of `cycleThroughPhases`
  (`Tick`), and the same iteration with the loop's timer state
  (`PollCycle`: last flip time and current cycle duration).
- `light_runs.dfy`, module `LightRuns`: traces of loop iterations, optionally
  interleaved with `waitForGreen` calls, and the invariants along them. Every
  phase ever sent alternates strictly and starts with green. The newest queued
  phase is the one the light shows.

The wall clock is an input: the elapsed time in whole milliseconds, as an
`int`. The random cycle duration is an input of the subset type
`CycleDuration`, which holds exactly the integers 4000 to 6000 that
`uniform_int_distribution(4000, 6000)` can produce. Blocking becomes a
precondition. `Receive` requires a non-empty queue. `WaitForGreen` requires a
green to be queued, which stands in for "the call eventually returns".

Notes on the code:
- If the waiter drains the queue, the light shows green after `waitForGreen`
  returns. Otherwise the next queued phase is red, and the light may show
  either phase (`LightRuns.WaitForGreenOnConsistent`).
- `send` copies the phase (`emplace_back(msg)` on a named reference) and calls
  `notify_one` while the `lock_guard` is still held (src/TrafficLight.cpp:33-35).
  Neither is visible in a sequential model of an enumeration.

## Model

| member | source | states |
|---|---|---|
| MessageQueue.Send | src/TrafficLight.cpp:28-36 | the queue grows by one, every earlier message keeps its position, and the new message is at the back |
| MessageQueue.Receive | src/TrafficLight.cpp:13-26 | on a non-empty queue, the returned message followed by the remaining queue is the old queue: the oldest message is returned and the multiset of messages is conserved |
| MessageQueue.SendAll | src/TrafficLight.cpp:28-36 | sending several messages one after another appends them in send order |
| MessageQueue.ReceiveMany | src/TrafficLight.cpp:19-25 | receiving n times returns the first n queued messages in queue order and leaves exactly the rest |
| MessageQueue.FifoRoundTrip | src/TrafficLight.cpp:19-35 | sending v1..vN to an empty queue and then receiving N times returns v1..vN in order and leaves the queue empty |
| MessageQueue.SendReceiveCommute | src/TrafficLight.cpp:19-35 | on a non-empty queue, a send before a receive changes neither the message received nor anything but the back of the queue |
| MessageQueue.RunIsFifo | src/TrafficLight.cpp:13-36 | in any interleaving of sends and non-blocking receives, the messages received followed by those left queued are the queued-then-sent messages in send order, and there is one message per receive |
| MessageQueue.DrainedRunDeliversAll | src/TrafficLight.cpp:13-36 | when a run from the empty queue ends with the queue empty, the receiver got exactly the sent messages in order, as many as there were receives |
| TrafficLight.Toggle | src/TrafficLight.cpp:99 | the new phase is always the other one of the two phases |
| TrafficLight.New | src/TrafficLight.cpp:42-45 | a new light is red and its queue is empty |
| TrafficLight.Tick | src/TrafficLight.cpp:97-100 | before the cycle duration has elapsed, phase and queue are unchanged; once it has, the phase becomes the other phase and exactly that new phase is appended to the queue |
| TrafficLight.FirstGreen | src/TrafficLight.cpp:54-58 | the index of the first green in a sequence holding a green: the element there is green and every earlier element is red |
| TrafficLight.WaitForGreen | src/TrafficLight.cpp:47-59 | given a queued green, exactly the prefix up to and including the first green is consumed, what remains is the rest of the queue, and the phase is untouched |
| TrafficLight.PollCycle | src/TrafficLight.cpp:83-104 | a loop iteration flips the light exactly when the elapsed time since the last flip reaches the drawn duration; a flip therefore comes no sooner than 4000 ms after the previous one, and any poll 6000 ms or more after it flips; a flip resets the reference time to now and installs the next drawn duration; otherwise the loop state is unchanged |
| LightRuns.TickPreservesConsistent | src/TrafficLight.cpp:98-100 | a loop iteration keeps the queued phases alternating with the newest equal to the current phase |
| LightRuns.TickAllFromStart | src/TrafficLight.cpp:89-104 | any number of loop iterations keep the queue alternating, starting with green, ending with the current phase, and keep the light red while nothing was sent |
| LightRuns.CycledLightAlternates | src/TrafficLight.cpp:42-104 | from construction, after any sequence of loop iterations, everything sent alternates strictly, starts with green, and its last element is the current phase |
| LightRuns.PollCyclePreservesFromStart | src/TrafficLight.cpp:94-103 | a loop iteration with its timer keeps everything sent alternating, starting with green and ending with the current phase |
| LightRuns.FirstWaitIsServed | src/TrafficLight.cpp:42-58 | once the first cycle of a new light has elapsed, a green is queued and a waitForGreen call returns with the light showing green |
| LightRuns.WaitForGreenOnConsistent | src/TrafficLight.cpp:47-59 | on an alternating queue whose newest phase is the current one, waitForGreen discards at most one red, leaves the light green if it empties the queue and leaves a red at the front otherwise |
| LightRuns.WaitForGreenKeepsConsistent | src/TrafficLight.cpp:47-59 | on an alternating queue whose newest phase is the current one, waitForGreen keeps the queue alternating with the newest phase equal to the current one |
| LightRuns.WaitForGreenCommutesWithTick | src/TrafficLight.cpp:54-58 | for a waiter that finds a green queued, a loop iteration and a waitForGreen call commute: either order yields the same light |
| LightRuns.ReceiveCommutesWithTick | src/TrafficLight.cpp:54-58 | a single receive of the waiter and a loop iteration commute: the waiter gets the same phase and both orders leave the same light, so a waiter that blocks between receives ends as if the producer's sends had come first |
| LightRuns.BlockedWaiterIsServed | src/TrafficLight.cpp:54-58 | on a consistent light holding only a stale red, the waiter takes it and blocks; the next flip sends green, and the waiter returns with the queue drained and the light green, the same light as when the flip comes before the wait |
| LightRuns.ExecuteKeepsConsistent | src/TrafficLight.cpp:47-104 | any interleaving of loop iterations and non-stalling waitForGreen calls by one waiter keeps the queued phases alternating with the newest equal to the current phase |

## Left out

- `simulate` and the `threads` vector (src/TrafficLight.cpp:66-70): thread creation and lifetime have no sequential behaviour to state.
- The mutex, `unique_lock`/`lock_guard` and the condition variable's wait and notify (src/TrafficLight.cpp:19-20, 33, 35): mutual exclusion and signalling. A blocking receive is a precondition instead.
- `high_resolution_clock`, `duration_cast` and the 1 ms `sleep_for` (src/TrafficLight.cpp:85, 91, 94-95): wall-clock input. Elapsed time is an integer input in milliseconds; for `Tick` the truncation of the clock difference to whole milliseconds happens before the model sees it (for `PollCycle` see the next line).
- TrafficLight.PollCycle: assumes a clock of millisecond resolution. The loop subtracts full-resolution time points, truncates the difference to whole milliseconds, and keeps the full-resolution reading as the new reference (src/TrafficLight.cpp:94-95, 102). With whole-millisecond readings, a poll near a boundary can flip up to 1 ms earlier than the loop does (last flip at 0.9 ms, poll at 4000.5 ms, duration 4000: the loop computes 3999 and does not flip). The 4000 ms bound it states holds of the loop as well; the 6000 ms bound holds of the loop only for a clock that does not jump forward by more than INT_MAX ms (next line).
- The narrowing of the millisecond count to a 32-bit `int` (src/TrafficLight.cpp:95): elapsed time is an unbounded integer. For a steady clock the count would wrap only after about 24.8 days without a flip, while a flip happens at most 6000 ms apart once polled. `high_resolution_clock` need not be steady (in libstdc++ it is `system_clock`): a forward jump of more than INT_MAX ms makes the count negative, and the loop then does not flip for up to another 24.8 days, where `PollCycle` flips at once.
- `random_device`, `mt19937` and `uniform_int_distribution` (src/TrafficLight.cpp:81-83, 86, 103): the random draws are inputs of type `CycleDuration`, so any sequence of draws in [4000, 6000] is covered.
- `CurrentPhase`: a plain read with no contract of its own; its meaning is stated by `LightRuns.Consistent`, which the run lemmas prove.
- The unsynchronised read of the phase by other threads, and the loss of greens when several threads call `waitForGreen` on one queue: both are concurrency effects with no meaning in a sequential model. `LightRuns.ExecuteKeepsConsistent` covers a single waiter only.
- The upper bound on the interval between flips: `PollCycle` proves that a poll 6000 ms or more after a flip always flips. How soon a poll follows depends on thread scheduling, which is not modelled.
- Move versus copy in `send` and in `receive`: for an enumeration both are a value copy.

=== FILE: light_runs.dfy ===
/**
 Runs of the traffic light: sequences of loop iterations of the cycling
 loop (the producer), optionally interleaved with `waitForGreen` calls
 (the consumer), and the invariants that hold along them.
 */
module LightRuns {
  import opened TrafficLight
  import MQ = MessageQueue

  /** Each phase of `s` after the first is the other phase of its predecessor. */
  predicate Alternating(s: seq<Phase>)
    decreases |s|
  {
    |s| <= 1 || (s[1] == Toggle(s[0]) && Alternating(s[1..]))
  }

  /** Strict alternation at every position of an alternating sequence. */
  lemma {:induction false} AlternatingStep(s: seq<Phase>, i: nat)
    requires Alternating(s)
    requires i + 1 < |s|
    ensures s[i + 1] == Toggle(s[i])
    decreases i
  {
    if i > 0 {
      AlternatingStep(s[1..], i - 1);
    }
  }

  /** Appending the other phase of the last one keeps a sequence alternating. */
  lemma {:induction false} AlternatingAppend(s: seq<Phase>, p: Phase)
    requires Alternating(s)
    requires |s| > 0 ==> p == Toggle(s[|s| - 1])
    ensures Alternating(s + [p])
    decreases |s|
  {
    if |s| >= 2 {
      assert (s + [p])[1..] == s[1..] + [p];
      AlternatingAppend(s[1..], p);
    } else if |s| == 1 {
      assert (s + [p])[1..] == [p];
    }
  }

  /** Every suffix of an alternating sequence alternates. */
  lemma {:induction false} AlternatingSuffix(s: seq<Phase>, k: nat)
    requires Alternating(s)
    requires k <= |s|
    ensures Alternating(s[k..])
    decreases k
  {
    if k > 0 {
      AlternatingSuffix(s[1..], k - 1);
      assert s[1..][k - 1..] == s[k..];
    }
  }

  /**
   The invariant the producer keeps: the queued phases alternate and the
   newest of them is the phase the light currently shows.
   */
  predicate Consistent(l: Light)
  {
    && Alternating(l.queue.items)
    && (|l.queue.items| > 0 ==> l.queue.items[|l.queue.items| - 1] == CurrentPhase(l))
  }

  /**
   What a light that has only been cycled since construction looks like:
   consistent, and either still red with nothing sent, or with a queue whose
   first phase is green.
   */
  predicate FromStart(l: Light)
  {
    && Consistent(l)
    && (|l.queue.items| == 0 ==> CurrentPhase(l) == Red)
    && (|l.queue.items| > 0 ==> l.queue.items[0] == Green)
  }

  /** One loop iteration's inputs: the measured elapsed time and the current cycle duration. */
  datatype Poll = Poll(elapsedMs: int, cycleDurationMs: CycleDuration)

  /** Applies the loop iterations `polls`, first to last. */
  function TickAll(l: Light, polls: seq<Poll>): Light
    decreases |polls|
  {
    if |polls| == 0 then l
    else TickAll(Tick(l, polls[0].elapsedMs, polls[0].cycleDurationMs), polls[1..])
  }

  /** A loop iteration keeps the producer's invariant, whether or not it flips. */
  lemma TickPreservesConsistent(l: Light, elapsedMs: int, cycleDurationMs: CycleDuration)
    requires Consistent(l)
    ensures Consistent(Tick(l, elapsedMs, cycleDurationMs))
  {
    var r := Tick(l, elapsedMs, cycleDurationMs);
    if elapsedMs >= cycleDurationMs {
      assert r.phase == Toggle(l.phase) by {
        assert r.phase != l.phase;
      }
      AlternatingAppend(l.queue.items, r.phase);
    }
  }

  /**
   From construction, after any sequence of loop iterations, everything ever
   sent alternates strictly, starts with green, and ends with the phase the
   light shows.
   */
  lemma CycledLightAlternates(polls: seq<Poll>)
    ensures FromStart(TickAll(New(), polls))
  {
    TickAllFromStart(New(), polls);
  }

  /** `FromStart` is preserved by any number of loop iterations. */
  lemma {:induction false} TickAllFromStart(l: Light, polls: seq<Poll>)
    requires FromStart(l)
    ensures FromStart(TickAll(l, polls))
    decreases |polls|
  {
    if |polls| > 0 {
      var l1 := Tick(l, polls[0].elapsedMs, polls[0].cycleDurationMs);
      TickPreservesConsistent(l, polls[0].elapsedMs, polls[0].cycleDurationMs);
      if |l.queue.items| == 0 && polls[0].elapsedMs >= polls[0].cycleDurationMs {
        assert l1.queue.items == [l1.phase];
        assert l1.phase == Green;
      } else if |l.queue.items| > 0 {
        assert l1.queue.items[0] == l.queue.items[0];
      }
      assert FromStart(l1);
      TickAllFromStart(l1, polls[1..]);
    }
  }

  /**
   The loop as written, with its timer, keeps the same invariant: each
   iteration of `PollCycle` preserves `FromStart` of the light.
   */
  lemma PollCyclePreservesFromStart(c: Cycle, nowMs: int, nextDurationMs: CycleDuration)
    requires FromStart(c.light)
    ensures FromStart(PollCycle(c, nowMs, nextDurationMs).light)
  {
    TickAllFromStart(c.light, [Poll(nowMs - c.previousTimeMs, c.cycleDurationMs)]);
    assert TickAll(c.light, [Poll(nowMs - c.previousTimeMs, c.cycleDurationMs)])
        == PollCycle(c, nowMs, nextDurationMs).light;
  }

  /**
   A waiter on a fresh light is served: once the first cycle has elapsed a
   green is queued, and `waitForGreen` returns with the light showing green.
   */
  lemma FirstWaitIsServed(elapsedMs: int, cycleDurationMs: CycleDuration)
    requires elapsedMs >= cycleDurationMs
    ensures Green in Tick(New(), elapsedMs, cycleDurationMs).queue.items
    ensures CurrentPhase(WaitForGreen(Tick(New(), elapsedMs, cycleDurationMs))) == Green
    ensures |WaitForGreen(Tick(New(), elapsedMs, cycleDurationMs)).queue.items| == 0
  {
    var l := Tick(New(), elapsedMs, cycleDurationMs);
    assert l.queue.items == [Green];
    assert FirstGreen(l.queue.items) == 0;
  }

  /** A non-empty suffix ends with the same element as the whole sequence. */
  lemma SuffixKeepsLast(s: seq<Phase>, k: nat)
    requires k <= |s|
    ensures k < |s| ==> s[k..][|s| - k - 1] == s[|s| - 1]
  {
  }

  /** In an alternating sequence, the first green is at position 0 or 1. */
  lemma FirstGreenOfAlternating(s: seq<Phase>)
    requires Alternating(s)
    requires Green in s
    ensures FirstGreen(s) <= 1
  {
    var k := FirstGreen(s);
    if s[0] != Green {
      assert 0 < k < |s|;
      assert s[1] == Toggle(s[0]) == Green;
    }
  }

  /**
   What follows the first green of an alternating sequence: it alternates,
   starts with red when it is not empty, and keeps the sequence's last element.
   */
  lemma AfterFirstGreen(s: seq<Phase>)
    requires Alternating(s)
    requires Green in s
    ensures FirstGreen(s) <= 1
    ensures Alternating(s[FirstGreen(s) + 1..])
    ensures FirstGreen(s) + 1 < |s| ==> s[FirstGreen(s) + 1] == Red
    ensures FirstGreen(s) + 1 == |s| ==> s[|s| - 1] == Green
  {
    var k := FirstGreen(s);
    FirstGreenOfAlternating(s);
    AlternatingSuffix(s, k + 1);
    if k + 1 < |s| {
      AlternatingStep(s, k);
    }
  }

  /**
   On a consistent light, `waitForGreen` discards at most one stale red
   before the green it returns on. If it catches up with the producer the
   light shows green; otherwise the next queued phase is red.
   */
  lemma WaitForGreenOnConsistent(l: Light)
    requires Consistent(l)
    requires Green in l.queue.items
    ensures |l.queue.items| - |WaitForGreen(l).queue.items| <= 2
    ensures |WaitForGreen(l).queue.items| == 0 ==> CurrentPhase(WaitForGreen(l)) == Green
    ensures |WaitForGreen(l).queue.items| > 0 ==> WaitForGreen(l).queue.items[0] == Red
  {
    AfterFirstGreen(l.queue.items);
  }

  /** `waitForGreen` on a consistent light leaves it consistent. */
  lemma {:induction false} WaitForGreenKeepsConsistent(l: Light)
    requires Consistent(l)
    requires Green in l.queue.items
    ensures Consistent(WaitForGreen(l))
  {
    var s := l.queue.items;
    var k := FirstGreen(s);
    AfterFirstGreen(s);
    SuffixKeepsLast(s, k + 1);
  }

  /** Appending to a sequence that already holds a green does not move its first green. */
  lemma FirstGreenOfAppend(s: seq<Phase>, p: Phase)
    requires Green in s
    ensures Green in s + [p]
    ensures FirstGreen(s + [p]) == FirstGreen(s)
  {
    var k := FirstGreen(s);
    var t := s + [p];
    assert t[k] == Green;
    assert forall j :: 0 <= j < k ==> t[j] == s[j];
  }

  /**
   A waiter that finds a green queued and the producer commute: a loop
   iteration followed by `waitForGreen` gives the same light as
   `waitForGreen` followed by that loop iteration.
   */
  lemma WaitForGreenCommutesWithTick(l: Light, elapsedMs: int, cycleDurationMs: CycleDuration)
    requires Green in l.queue.items
    ensures Green in Tick(l, elapsedMs, cycleDurationMs).queue.items
    ensures WaitForGreen(Tick(l, elapsedMs, cycleDurationMs))
         == Tick(WaitForGreen(l), elapsedMs, cycleDurationMs)
  {
    if elapsedMs >= cycleDurationMs {
      var s := l.queue.items;
      var t := Tick(l, elapsedMs, cycleDurationMs);
      FirstGreenOfAppend(s, t.phase);
      var k := FirstGreen(s);
      assert (s + [t.phase])[k + 1..] == s[k + 1..] + [t.phase];
      var a := WaitForGreen(t);
      var b := Tick(WaitForGreen(l), elapsedMs, cycleDurationMs);
      assert a.phase == b.phase by {
        assert b.phase != l.phase && t.phase != l.phase;
      }
      assert a.queue.items == b.queue.items;
    }
  }

  /** One `receive` of the waiter on the light's queue; the phase is not touched. */
  function ReceiveStep(l: Light): Light
    requires |l.queue.items| > 0
  {
    l.(queue := MQ.Receive(l.queue).1)
  }

  /**
   A single `receive` of the waiter and a loop iteration commute: the waiter
   gets the same phase whether or not the producer ran first, and both
   orders leave the same light. This is the step that lets a waiter that
   blocks between two receives end as if the producer's sends had come
   before the wait.
   */
  lemma ReceiveCommutesWithTick(l: Light, elapsedMs: int, cycleDurationMs: CycleDuration)
    requires |l.queue.items| > 0
    ensures |Tick(l, elapsedMs, cycleDurationMs).queue.items| > 0
    ensures MQ.Receive(Tick(l, elapsedMs, cycleDurationMs).queue).0 == MQ.Receive(l.queue).0
    ensures ReceiveStep(Tick(l, elapsedMs, cycleDurationMs))
         == Tick(ReceiveStep(l), elapsedMs, cycleDurationMs)
  {
    var t := Tick(l, elapsedMs, cycleDurationMs);
    assert (l.queue.items + [t.phase])[1..] == l.queue.items[1..] + [t.phase];
  }

  /**
   The blocked waiter: on a consistent light whose queue holds only stale
   reds, the waiter takes the one red and then blocks on the empty queue.
   The next flip sends green, and the waiter returns with the queue drained
   and the light green, exactly as if the flip had come before the wait.
   */
  lemma BlockedWaiterIsServed(l: Light, elapsedMs: int, cycleDurationMs: CycleDuration)
    requires Consistent(l)
    requires |l.queue.items| > 0 && Green !in l.queue.items
    requires elapsedMs >= cycleDurationMs
    ensures |ReceiveStep(l).queue.items| == 0
    ensures Green in Tick(ReceiveStep(l), elapsedMs, cycleDurationMs).queue.items
    ensures Green in Tick(l, elapsedMs, cycleDurationMs).queue.items
    ensures WaitForGreen(Tick(ReceiveStep(l), elapsedMs, cycleDurationMs))
         == WaitForGreen(Tick(l, elapsedMs, cycleDurationMs))
    ensures CurrentPhase(WaitForGreen(Tick(l, elapsedMs, cycleDurationMs))) == Green
    ensures |WaitForGreen(Tick(l, elapsedMs, cycleDurationMs)).queue.items| == 0
  {
  }

  /** A step of the whole system: a loop iteration of the producer, or a `waitForGreen` call. */
  datatype Event = Cycled(poll: Poll) | AwaitedGreen

  /**
   True when every `waitForGreen` of `events`, run from `l`, finds a green
   already queued, so that no call blocks forever.
   */
  predicate NeverStalls(l: Light, events: seq<Event>)
    decreases |events|
  {
    |events| == 0 ||
    match events[0]
    case Cycled(p) => NeverStalls(Tick(l, p.elapsedMs, p.cycleDurationMs), events[1..])
    case AwaitedGreen => Green in l.queue.items && NeverStalls(WaitForGreen(l), events[1..])
  }

  /** Applies `events`, first to last. */
  function Execute(l: Light, events: seq<Event>): Light
    requires NeverStalls(l, events)
    decreases |events|
  {
    if |events| == 0 then l
    else
      match events[0]
      case Cycled(p) => Execute(Tick(l, p.elapsedMs, p.cycleDurationMs), events[1..])
      case AwaitedGreen => Execute(WaitForGreen(l), events[1..])
  }

  /**
   With a single waiter, any interleaving of loop iterations and
   `waitForGreen` calls keeps the producer's invariant: the phases still
   queued alternate and the newest of them is the phase the light shows.
   */
  lemma {:induction false} ExecuteKeepsConsistent(l: Light, events: seq<Event>)
    requires Consistent(l)
    requires NeverStalls(l, events)
    ensures Consistent(Execute(l, events))
    decreases |events|
  {
    if |events| > 0 {
      match events[0]
      case Cycled(p) =>
        TickPreservesConsistent(l, p.elapsedMs, p.cycleDurationMs);
        ExecuteKeepsConsistent(Tick(l, p.elapsedMs, p.cycleDurationMs), events[1..]);
      case AwaitedGreen =>
        WaitForGreenKeepsConsistent(l);
        ExecuteKeepsConsistent(WaitForGreen(l), events[1..]);
    }
  }
}

=== FILE: message_queue.dfy ===
/**
 A sequential model of the generic blocking message queue `MessageQueue<T>`.

 The C++ `MessageQueue<T>` guards a deque with a mutex and a condition variable. In a
 sequential model the lock disappears and the blocking wait of `receive`
 becomes the precondition that the queue is non-empty. What remains is a
 FIFO over `seq<T>`: `Send` appends at the back, `Receive` takes the front.
 */
module MessageQueue {

  /** The queue's contents, oldest message first. */
  datatype Queue<T> = Queue(items: seq<T>)

  /** A queue holding no message. */
  function Empty<T>(): (q: Queue<T>)
    ensures |q.items| == 0
  {
    Queue([])
  }

  /** `send`: the message joins the back; every earlier message keeps its place. */
  function Send<T>(q: Queue<T>, msg: T): (q': Queue<T>)
    ensures |q'.items| == |q.items| + 1
    ensures q'.items[..|q.items|] == q.items
    ensures q'.items[|q.items|] == msg
  {
    Queue(q.items + [msg])
  }

  /**
   `receive`: blocks until a message is present, then removes and returns
   the oldest one. The returned message followed by the remaining queue is
   exactly the queue before the call, so nothing is duplicated or dropped.
   */
  function Receive<T>(q: Queue<T>): (r: (T, Queue<T>))
    requires |q.items| > 0
    ensures [r.0] + r.1.items == q.items
    ensures multiset(q.items) == multiset{r.0} + multiset(r.1.items)
  {
    (q.items[0], Queue(q.items[1..]))
  }

  /** Sends every message of `msgs`, first to last. */
  function SendAll<T>(q: Queue<T>, msgs: seq<T>): (q': Queue<T>)
    ensures q'.items == q.items + msgs
    decreases |msgs|
  {
    if |msgs| == 0 then q
    else
      var q1 := SendAll(Send(q, msgs[0]), msgs[1..]);
      assert q.items + msgs == (q.items + [msgs[0]]) + msgs[1..];
      q1
  }

  /**
   Calls `Receive` `n` times; returns the messages in the order they were
   received and the queue left behind.
   */
  function ReceiveMany<T>(q: Queue<T>, n: nat): (r: (seq<T>, Queue<T>))
    requires n <= |q.items|
    ensures r.0 == q.items[..n]
    ensures r.1.items == q.items[n..]
    decreases n
  {
    if n == 0 then ([], q)
    else
      var (msg, rest) := Receive(q);
      var (tail, left) := ReceiveMany(rest, n - 1);
      ([msg] + tail, left)
  }

  /**
   FIFO: sending `msgs` to an empty queue and then receiving as many times
   as there were messages yields `msgs` in send order and empties the queue.
   */
  lemma FifoRoundTrip<T>(msgs: seq<T>)
    ensures ReceiveMany(SendAll(Empty(), msgs), |msgs|).0 == msgs
    ensures |ReceiveMany(SendAll(Empty(), msgs), |msgs|).1.items| == 0
  {
    var q := SendAll(Empty<T>(), msgs);
    assert q.items == msgs;
  }

  /**
   A send does not disturb a pending receive: on a non-empty queue the
   receiver gets the same front message whether or not a send came first,
   and the sent message sits at the back of what remains.
   */
  lemma SendReceiveCommute<T>(q: Queue<T>, msg: T)
    requires |q.items| > 0
    ensures Receive(Send(q, msg)).0 == Receive(q).0
    ensures Receive(Send(q, msg)).1 == Send(Receive(q).1, msg)
  {
    var s := Send(q, msg);
    assert s.items == q.items + [msg];
    assert s.items[1..] == q.items[1..] + [msg];
  }

  /** One step of a single producer or the single consumer. */
  datatype Op<T> = Put(msg: T) | Take

  /** The messages the `Put` steps of `ops` send, in order. */
  function Sent<T>(ops: seq<Op<T>>): seq<T>
    decreases |ops|
  {
    if |ops| == 0 then []
    else (if ops[0].Put? then [ops[0].msg] else []) + Sent(ops[1..])
  }

  /** The number of `Take` steps in `ops`. */
  function Takes<T>(ops: seq<Op<T>>): nat
    decreases |ops|
  {
    if |ops| == 0 then 0
    else (if ops[0].Take? then 1 else 0) + Takes(ops[1..])
  }

  /**
   True when no `Take` of `ops`, run from `q`, meets an empty queue: the
   consumer never blocks forever in a run where nobody else sends.
   */
  predicate NeverBlocks<T>(q: Queue<T>, ops: seq<Op<T>>)
    decreases |ops|
  {
    |ops| == 0 ||
    match ops[0]
    case Put(m) => NeverBlocks(Send(q, m), ops[1..])
    case Take => |q.items| > 0 && NeverBlocks(Receive(q).1, ops[1..])
  }

  /**
   Runs an interleaving of sends and receives from `q`; returns the messages
   received, in order, and the queue left behind.
   */
  function Run<T>(q: Queue<T>, ops: seq<Op<T>>): (seq<T>, Queue<T>)
    requires NeverBlocks(q, ops)
    decreases |ops|
  {
    if |ops| == 0 then ([], q)
    else if ops[0].Put? then Run(Send(q, ops[0].msg), ops[1..])
    else
      var (msg, rest) := Receive(q);
      var (got, left) := Run(rest, ops[1..]);
      ([msg] + got, left)
  }

  /**
   FIFO without loss or duplication: in any run, the messages received
   followed by what is left in the queue are exactly the messages that were
   queued and then sent, in the same order, and there is one message per
   receive.
   */
  lemma {:induction false} RunIsFifo<T>(q: Queue<T>, ops: seq<Op<T>>)
    requires NeverBlocks(q, ops)
    ensures Run(q, ops).0 + Run(q, ops).1.items == q.items + Sent(ops)
    ensures |Run(q, ops).0| == Takes(ops)
    decreases |ops|
  {
    if |ops| == 0 {
    } else if ops[0].Put? {
      RunIsFifo(Send(q, ops[0].msg), ops[1..]);
      RunPutStep(q, ops);
    } else {
      RunIsFifo(Receive(q).1, ops[1..]);
      RunTakeStep(q, ops);
    }
  }

  /** The inductive step of `RunIsFifo` for a send. */
  lemma RunPutStep<T>(q: Queue<T>, ops: seq<Op<T>>)
    requires |ops| > 0 && ops[0].Put?
    requires NeverBlocks(q, ops)
    requires Run(Send(q, ops[0].msg), ops[1..]).0 + Run(Send(q, ops[0].msg), ops[1..]).1.items
             == Send(q, ops[0].msg).items + Sent(ops[1..])
    requires |Run(Send(q, ops[0].msg), ops[1..]).0| == Takes(ops[1..])
    ensures Run(q, ops).0 + Run(q, ops).1.items == q.items + Sent(ops)
    ensures |Run(q, ops).0| == Takes(ops)
  {
    var q1 := Send(q, ops[0].msg);
    assert Run(q, ops) == Run(q1, ops[1..]);
    assert Sent(ops) == [ops[0].msg] + Sent(ops[1..]);
    ConcatAssoc(q.items, [ops[0].msg], Sent(ops[1..]));
  }

  /** The inductive step of `RunIsFifo` for a receive. */
  lemma RunTakeStep<T>(q: Queue<T>, ops: seq<Op<T>>)
    requires |ops| > 0 && ops[0].Take?
    requires NeverBlocks(q, ops)
    requires Run(Receive(q).1, ops[1..]).0 + Run(Receive(q).1, ops[1..]).1.items
             == Receive(q).1.items + Sent(ops[1..])
    requires |Run(Receive(q).1, ops[1..]).0| == Takes(ops[1..])
    ensures Run(q, ops).0 + Run(q, ops).1.items == q.items + Sent(ops)
    ensures |Run(q, ops).0| == Takes(ops)
  {
    var rest := Receive(q).1;
    var r1 := Run(rest, ops[1..]);
    assert Run(q, ops) == ([q.items[0]] + r1.0, r1.1);
    assert Sent(ops) == Sent(ops[1..]);
    calc {
      ([q.items[0]] + r1.0) + r1.1.items;
      [q.items[0]] + (r1.0 + r1.1.items);
      [q.items[0]] + (rest.items + Sent(ops[1..]));
      { ConcatAssoc([q.items[0]], rest.items, Sent(ops[1..])); }
      ([q.items[0]] + rest.items) + Sent(ops[1..]);
      { assert [q.items[0]] + rest.items == q.items; }
      q.items + Sent(ops[1..]);
      q.items + Sent(ops);
    }
  }

  /** Concatenation is associative. */
  lemma ConcatAssoc<T>(a: seq<T>, b: seq<T>, c: seq<T>)
    ensures (a + b) + c == a + (b + c)
  {
  }

  /**
   Corollary for a drained queue: when a run from the empty queue ends with
   the queue empty, the consumer received exactly what the producer sent.
   */
  lemma DrainedRunDeliversAll<T>(ops: seq<Op<T>>)
    requires NeverBlocks(Empty(), ops)
    requires |Run(Empty(), ops).1.items| == 0
    ensures Run(Empty(), ops).0 == Sent(ops)
    ensures |Sent(ops)| == Takes(ops)
  {
    var r := Run(Empty<T>(), ops);
    RunIsFifo(Empty<T>(), ops);
    assert r.0 + r.1.items == Sent(ops);
    assert r.0 + r.1.items == r.0;
  }
}

=== FILE: traffic_light.dfy ===
/**
 A sequential model of the `TrafficLight` actor: a two-phase machine over
 {red, green} that owns a `MessageQueue` of phases.

 The background loop `cycleThroughPhases` is reduced to one pure step per
 loop iteration. The wall clock becomes an elapsed-time input and the
 random cycle duration becomes an input drawn from `CycleDuration`.
 */
module TrafficLight {
  import opened MessageQueue

  /** The two phases of the light. */
  datatype Phase = Red | Green

  /** Bounds of the uniform distribution the cycle duration is drawn from, in milliseconds. */
  const MinCycleMs: int := 4000
  const MaxCycleMs: int := 6000

  /** A cycle duration the random distribution can produce. */
  type CycleDuration = d: int | MinCycleMs <= d <= MaxCycleMs witness MinCycleMs

  /** The light's observable state: its current phase and its queue of phase updates. */
  datatype Light = Light(phase: Phase, queue: Queue<Phase>)

  /** The other phase. */
  function Toggle(p: Phase): (r: Phase)
    ensures r != p
  {
    match p
    case Red => Green
    case Green => Red
  }

  /** The constructor: a new light shows red and has sent nothing yet. */
  function New(): (l: Light)
    ensures l.phase == Red
    ensures |l.queue.items| == 0
  {
    Light(Red, Empty())
  }

  /** `getCurrentPhase`: a plain read of the phase. */
  function CurrentPhase(l: Light): Phase
  {
    l.phase
  }

  /**
   One iteration of the cycling loop, after the elapsed time since the last
   flip has been measured. Before the cycle duration has passed nothing
   changes; once it has, the phase flips and the new phase is sent.
   */
  function Tick(l: Light, elapsedMs: int, cycleDurationMs: CycleDuration): (r: Light)
    ensures elapsedMs < cycleDurationMs ==> r == l
    ensures elapsedMs >= cycleDurationMs ==> r.phase != l.phase
    ensures elapsedMs >= cycleDurationMs ==> r.queue.items == l.queue.items + [r.phase]
  {
    if elapsedMs >= cycleDurationMs then
      var next := Toggle(CurrentPhase(l));
      Light(next, Send(l.queue, next))
    else
      l
  }

  /**
   Reference definition for `waitForGreen`: the position of the first green
   in `s`. Every phase before it is red.
   */
  function FirstGreen(s: seq<Phase>): (i: nat)
    requires Green in s
    ensures i < |s| && s[i] == Green
    ensures forall j :: 0 <= j < i ==> s[j] == Red
    decreases |s|
  {
    if s[0] == Green then 0
    else
      assert Green in s[1..] by {
        var k :| 0 <= k < |s| && s[k] == Green;
        assert s[1..][k - 1] == Green;
      }
      1 + FirstGreen(s[1..])
  }

  /**
   `waitForGreen`: receives from the queue over and over, discarding red,
   and stops right after receiving green. The blocking receive becomes the
   precondition that a green is queued. Exactly the prefix up to and
   including the first green is consumed; the phase field is not touched.
   */
  function WaitForGreen(l: Light): (r: Light)
    requires Green in l.queue.items
    ensures r.phase == l.phase
    ensures r.queue.items == l.queue.items[FirstGreen(l.queue.items) + 1..]
    decreases |l.queue.items|
  {
    var (msg, rest) := Receive(l.queue);
    var l' := l.(queue := rest);
    if msg == Green then l'
    else
      assert msg == Red && l.queue.items == [msg] + rest.items;
      assert Green in rest.items;
      WaitForGreen(l')
  }

  /**
   The loop-carried state of `cycleThroughPhases`: the light, the time of
   the last flip (or of the loop's start), and the duration drawn for the
   current cycle.
   */
  datatype Cycle = Cycle(light: Light, previousTimeMs: int, cycleDurationMs: CycleDuration)

  /**
   One loop iteration at clock reading `nowMs`. When the light flips, the
   reference time is reset to `nowMs` and the duration of the next cycle is
   `nextDurationMs`, the next draw of the distribution. A flip never comes
   sooner than the minimum duration after the previous one, and a poll made
   the maximum duration or later after the previous flip always flips.
   */
  function PollCycle(c: Cycle, nowMs: int, nextDurationMs: CycleDuration): (c': Cycle)
    ensures c'.light == Tick(c.light, nowMs - c.previousTimeMs, c.cycleDurationMs)
    ensures c'.light.phase != c.light.phase <==> nowMs - c.previousTimeMs >= c.cycleDurationMs
    ensures c'.light.phase != c.light.phase ==> nowMs - c.previousTimeMs >= MinCycleMs
    ensures nowMs - c.previousTimeMs >= MaxCycleMs ==> c'.light.phase != c.light.phase
    ensures c'.light.phase != c.light.phase ==>
      c'.previousTimeMs == nowMs && c'.cycleDurationMs == nextDurationMs
    ensures c'.light.phase == c.light.phase ==> c' == c
  {
    var elapsedMs := nowMs - c.previousTimeMs;
    if elapsedMs >= c.cycleDurationMs then
      Cycle(Tick(c.light, elapsedMs, c.cycleDurationMs), nowMs, nextDurationMs)
    else
      c
  }
}
